=== FILE: README.md ===
# Chat-with-your-document: retrieval-augmented answering, modelled in Dafny

This project models the pure, sequential core of a small retrieval-augmented
question-answering chatbot. A user uploads a document; its text is split into
chunks of 500 words, each chunk is embedded by an embedding service and stored
in a vector store; each question is embedded, the three most similar chunks are
retrieved, and a prompt combining the last five conversation turns, the
retrieved context, a keyword-derived task instruction and the question is sent
to a generation service, whose answer is appended to the conversation.

The embedding service, the similarity search and the generation service are
oracles passed in as Dafny functions that may fail (`Results.Result`).
Ingestion takes one embedding oracle per attempt, as it takes one id per
attempt, so a transient failure on one chunk is not forced onto another chunk
with the same text. The vector store is a value (`VectorIndex.Index`): its collection list plus the
records of the `text_embeddings` collection keyed by id. Nothing is stateful;
every operation returns the new store or conversation.

Modules, one per component:

- `Results` — `Option`, `Result` (a value or an exception message).
- `Numbers` — `Min`, used to clip slice bounds.
- `Strings` — the Python string behaviour the code relies on: the exact
  `str.isspace` character set, `sep.join`, `in` on strings, `str.lower`,
  `str.strip`. It also holds `SplitOn` (splitting at one character), which
  the code never calls: it exists only so that `Answer.HistoryLines` can
  read the rendered conversation block back line by line. The code's only
  split is the argument-less `text.split()`, modelled as `Chunker.Words`.
- `Chunker` — `chunk_text`: `text.split()` as `Words`, the windowing as
  `Group`, and `ChunkText`.
- `VectorIndex` — collection setup, `generate_embeddings`,
  `store_embeddings`, `search_similar_text`.
- `Answer` — `generate_answer`: classifier, conversation window and its
  rendering, context, prompt template, generation with failure containment.
- `Ingestion` — the chunk-then-store loop of `extract_text`.
- `Session` — the session of main/app.py: start-up, upload, and the
  ask-then-append step.

The collection setup is the fixed step main/backend/vec.py:28-35 runs when
the module is loaded (name `text_embeddings`, 1024 dimensions, cosine), and
`VectorIndex.EnsureCollection` models exactly that step. The chunk size is
passed to `range` as its step, so `ChunkText` models a zero size as the
`ValueError` that `range` raises and a negative size as the empty list.

## Model

| member | source | states |
|---|---|---|
| Chunker.Words | main/backend/utils.py:5 | `text.split()` yields only words: every element is non-empty and whitespace-free |
| Chunker.WordsEmptyIff | main/backend/utils.py:5 | a text has no words exactly when it is empty or all whitespace |
| Chunker.WordsSplitAt | main/backend/utils.py:5 | splitting a text at one whitespace character concatenates the word lists of the two sides |
| Chunker.WordsOfJoin | main/backend/utils.py:5-6 | round trip: splitting words joined with single spaces gives the same words back |
| Chunker.WordsNormalised | main/backend/utils.py:5-6 | re-splitting the single-space join of a text's words reproduces its word sequence |
| Chunker.Group | main/backend/utils.py:6 | the comprehension `[words[i:i+size] for i in range(0, len(words), size)]` as consecutive windows; it carries no contract of its own, and GroupShape, GroupWindow, GroupCountBounds and GroupCount state its properties |
| Chunker.GroupShape | main/backend/utils.py:6 | the windows flatten back to the word list in order; each holds 1 to `size` words, all but the last exactly `size` |
| Chunker.GroupWindow | main/backend/utils.py:6 | window `i` is the slice `words[i*size : i*size+size]` of the comprehension over `range(0, len(words), size)` |
| Chunker.GroupCountBounds | main/backend/utils.py:6 | no words gives no windows; `(count-1)*size < len(words) <= count*size` |
| Chunker.GroupCount | main/backend/utils.py:6 | the number of windows is `ceil(len(words)/size)` |
| Chunker.ChunkText | main/backend/utils.py:4-6 | a zero size fails as `range` does, a negative size gives `[]`, otherwise one chunk per window |
| Chunker.ChunkWords | main/backend/utils.py:6 | re-splitting chunk `i` gives window `i`: 1 to `size` words, exactly `size` except the last chunk |
| Chunker.ChunkRoundTrip | main/backend/utils.py:5-6 | joining the chunks with single spaces equals joining the document's words with single spaces, and splits back into them |
| Chunker.ChunkCount | main/backend/utils.py:6 | there are `ceil(len(text.split())/size)` chunks |
| Chunker.ChunkEmpty | main/backend/utils.py:5-6 | chunking yields `[]` exactly for empty or whitespace-only text, without error |
| VectorIndex.EnsureCollection | main/backend/vec.py:28-35 | afterwards `text_embeddings` exists; if absent it is added once with 1024 dimensions and cosine distance; if present the store is untouched; records never change |
| VectorIndex.EnsureCollectionIdempotent | main/backend/vec.py:28-35 | running the setup twice equals running it once and leaves exactly one collection of that name |
| VectorIndex.GenerateEmbeddings | main/backend/vec.py:36-43 | the service's failure, or a response without vectors, gives `None` instead of an exception; otherwise the first vector |
| VectorIndex.StoreEmbeddings | main/backend/vec.py:46-63 | on embedding failure returns `None` and the same store; on success returns the new id and the store gains exactly that id, holding the document-mode vector and the text as payload, other records unchanged |
| VectorIndex.StoreAddsOneRecord | main/backend/vec.py:52-63 | with an id not yet in use, a successful store adds exactly one record and keeps every existing one |
| VectorIndex.StoreFrame | main/backend/vec.py:52-63 | whatever the id, a store keeps the collections, loses no id, adds at most the new one, and any new or changed record holds the stored text |
| VectorIndex.StoreFresh | main/backend/vec.py:46-63 | with an unused id, the record under it appears exactly when embedding succeeds and then holds the text; every other id keeps its record or its absence |
| VectorIndex.StoreUsesDocumentMode | main/backend/vec.py:48 | storing consults only the document-mode embedding of the text |
| VectorIndex.SearchSimilarText | main/backend/vec.py:65-77 | embedding failure gives `[]`; otherwise the hits of the search on the query-mode vector, in rank order, as (payload text, score) pairs |
| VectorIndex.SearchResultsAreStoredTexts | main/backend/vec.py:71-77 | with a well-behaved search: at most `limit` results, each text a stored text, scores non-increasing, and an empty store gives `[]` |
| VectorIndex.SearchUsesQueryMode | main/backend/vec.py:67 | searching consults only the query-mode embedding of the question |
| Answer.Classify | main/backend/vec.py:90-97 | the task is the first of summarize, explain, compare whose keyword occurs in the lower-cased question, and general only when none does |
| Answer.TaskInstruction | main/backend/vec.py:90-97 | the task line is always one of the four fixed instruction strings |
| Answer.ClassifyIgnoresCase | main/backend/vec.py:90-94 | the classification of a question equals that of its lower-cased form |
| Answer.SummarizeWins | main/backend/vec.py:90-91 | a question holding "summarize" anywhere, in any letter case, is a summarize request whatever else it holds, before or after |
| Answer.ClassifyPriorityExample | main/backend/vec.py:90-93 | "please summarize and explain this" is a summarize request, although it also mentions "explain" |
| Answer.ClassifyUpperCaseExample | main/backend/vec.py:92-93 | "Please EXPLAIN this" is an explain request |
| Answer.ClassifyGeneralExample | main/backend/vec.py:96-97 | "What is this about?" gets the general instruction |
| Answer.Window | main/backend/vec.py:84 | the window is the last `min(5, n)` turns of the history, oldest first |
| Answer.WindowSlides | main/backend/vec.py:84 | appending a turn adds it at the end of the window and, once five are held, drops the oldest |
| Answer.WindowAfterSeven | main/backend/vec.py:84 | after seven turns the window is turns three to seven |
| Answer.RenderTurn | main/backend/vec.py:86 | the f-string `"User: {q}\nAI: {a}"`; RenderTurnLines states it as the turn's two lines joined by a line break |
| Answer.HistoryText | main/backend/vec.py:86 | `"\n".join` of the rendered turns of the window; HistoryLines (reading the block back) and HistoryTextAppend (appending a turn) state its properties |
| Answer.RenderTurnLines | main/backend/vec.py:86 | a rendered turn is its "User: q" and "AI: a" lines joined by a line break |
| Answer.HistoryLines | main/backend/vec.py:86 | for a non-empty window in which no message contains a line break, splitting the conversation block at line breaks gives "User: q", "AI: a" per turn, oldest first |
| Answer.HistoryTextAppend | main/backend/vec.py:86 | rendering a window plus one turn is the old block, a line break and the new turn |
| Answer.Context | main/backend/vec.py:87 | no chunks gives exactly the placeholder; otherwise a prefix of the space-joined chunk texts of length `min(2000, full length)` |
| Answer.ContextTruncation | main/backend/vec.py:87 | a join over 2000 characters is cut to exactly 2000; a shorter one is kept whole |
| Answer.Prompt | main/backend/vec.py:99-114 | the f-string template filled with conversation, context, task and question; PromptLayout and PromptMentions state where each slot sits |
| Answer.PromptLayout | main/backend/vec.py:99-114 | the prompt opens with the preamble (system text and "Previous conversation:" header); conversation, context, task and question then occupy consecutive slots of the template, in that order, each after its header, followed by the answer cue |
| Answer.PromptMentions | main/backend/vec.py:99-114 | the prompt contains the conversation block, the context, "Task: " followed by the instruction, and "User question: " followed by the question |
| Answer.Generate | main/backend/vec.py:116-126 | a failing service gives "Error generating answer: " plus its message (an empty generation list gives the IndexError message); a success gives the first text with surrounding whitespace removed |
| Answer.GenerateSuccessIsStripped | main/backend/vec.py:123 | a successful answer is the unique trimmed middle of the generated text |
| Answer.QueryPrompt | main/backend/vec.py:83-114 | the prompt `generate_answer` assembles: search results as context, the last five turns, the classifier's instruction and the question; NoContextWhenNothingRetrieved states what it holds when nothing is retrieved |
| Answer.GenerateAnswer | main/backend/vec.py:80-126 | on the prompt assembled from the query, never an exception: a failing service gives "Error generating answer: " plus its message, an empty generation list gives that prefix plus "list index out of range", and a success gives the first generated text with surrounding whitespace removed |
| Answer.NoContextWhenNothingRetrieved | main/backend/vec.py:83-87 | an empty store under a well-behaved search, or a failed query embedding, puts the placeholder in the prompt the generator receives |
| Strings.Join | main/backend/utils.py:6 | `sep.join(parts)`: the parts with `sep` between neighbours; JoinAppend (a join of two lists is the two joins glued by `sep`), WordsOfJoin and SplitOfJoin (round trips) state its properties |
| Strings.JoinEach | main/backend/utils.py:6 | `[sep.join(g) for g in gs]`: one join per group, in order; JoinOfJoins states that joining the joins is joining the flattened groups |
| Strings.Lower | main/backend/vec.py:90 | `str.lower` character by character: same length, each character lower-cased; LowerIdempotent and LowerConcat state that it is idempotent and distributes over concatenation |
| Strings.Contains | main/backend/vec.py:90 | Python's `in` on strings: true exactly when the keyword occurs at some offset |
| Strings.Strip | main/backend/vec.py:123 | `str.strip()`: the result is the input with a whitespace prefix and suffix removed, and starts and ends with non-whitespace |
| Strings.StripUnique | main/backend/vec.py:123 | any split into whitespace, a trimmed middle and whitespace has `Strip`'s result as the middle |
| Strings.StripIdempotent | main/backend/vec.py:123 | stripping twice equals stripping once |
| Ingestion.StoreAll | main/backend/utils.py:21-22 | the store after one `store_embeddings` attempt per chunk, in chunk order, each attempt with its own call to the embedding service; StoreAllFrame, StoreAllCount and StoreAllRecords state its properties |
| Ingestion.StoreAllFrame | main/backend/utils.py:20-22 | one store attempt per chunk in order: collections unchanged, ids only added, at most one new record per chunk, every new or changed record's text is a chunk |
| Ingestion.StoreAllCount | main/backend/utils.py:21-22 | with fresh distinct ids, the store grows by exactly the number of chunks whose embedding succeeded |
| Ingestion.StoreAllRecords | main/backend/utils.py:21-22 | with fresh distinct ids, attempt `i` leaves a record exactly when its own embedding call for chunk `i` succeeded, and that record holds chunk `i`; a failed attempt leaves no trace, even when another attempt on the same text succeeds |
| Ingestion.StoreChunks | main/backend/utils.py:21-22 | the loop makes one attempt per chunk, in chunk order, attempt `i` with its own embedding call, and ends with the store of those attempts applied in sequence |
| Ingestion.ExtractText | main/backend/utils.py:19-24 | returns the text unchanged; absent or empty text makes no attempt; otherwise attempts are exactly the chunks, in order |
| Ingestion.IngestionBounds | main/backend/utils.py:19-22 | indexed records grow by at most the chunk count, new records hold chunk texts, whitespace-only text stores nothing |
| Session.InitialStore | main/backend/vec.py:24-35 | the in-memory store starts with exactly one collection, `text_embeddings` with 1024 dimensions and cosine distance, and no records |
| Session.Start | main/app.py:8-12 | the session starts with the initial store, an empty conversation and no document text |
| Session.Upload | main/app.py:17-18 | uploading remembers the extracted text and leaves the conversation alone; absent or empty text makes no store attempt, otherwise the attempts are exactly the 500-word chunks of the text, in order, applied to the store |
| Session.Ask | main/app.py:35-45 | an absent or empty question does nothing; otherwise the answer is `generate_answer` on the conversation before this turn, the turn (question, answer) is appended, and the store is untouched |
| Session.AskRecordsFailures | main/app.py:39-45 | a failing generation still appends a turn whose answer is "Error generating answer: " followed by the service's message |
| Session.AskKeepsHistory | main/app.py:45 | the conversation is append-only, and the next window slides by the new turn |

## Left out

- Strings.Lower: `str.lower` is modelled for the ASCII letters only. For this classifier that changes nothing: the only non-ASCII characters that lower-case to ASCII letters are U+212A (to `k`, in no keyword) and U+0130 (to `i` plus U+0307, which cannot be followed by the `n`/`z` the keywords need after `i`).
- The Streamlit display, widgets and session-state initialisation of main/app.py: rendering only. Streamlit re-runs the whole script on every interaction, so an upload left in the widget is ingested again with new ids on each rerun; `Session.Upload` treats an upload as one event.
- Environment and API-key loading and the stop on a missing key (main/backend/vec.py:12-21): process configuration.
- PDF and UTF-8 decoding in `extract_text` (main/backend/utils.py:11-17): foreign library calls; the extracted text is an input, `None` for other file types.
- The embedding, similarity and generation services: oracles. Vector contents, `float32` conversion, cosine scores, ranking and its tie-breaks are not modelled; `RankedHits` only states what a well-behaved search returns.
- `max_tokens=300` and `temperature=0.5` are sent in every request (`Answer.Request`); their effect on the generated text belongs to the oracle.
- `uuid.uuid4().hex`: the id is a parameter (one per attempt in `Ingestion`); freshness is a hypothesis of the lemmas that need it. The store's upsert overwrites an existing id, as the vector store does.
- Exceptions the vector store itself can raise (upsert into or search of a missing collection, a vector of the wrong dimension, a failing backend): nothing in the code catches them. A failure of `client.search` (main/backend/vec.py:71) escapes `generate_answer`, since `search_similar_text` is called at line 83, outside the `try` at line 116, and the turn is then never appended at main/app.py:45; a failing `client.upsert` likewise escapes `extract_text`. The model's store and search operations are total: the module-load setup creates the collection first, and backend failures are not modelled.
- The `print` logging of setup and embedding failures (main/backend/vec.py:29, 35, 42).
- A stored payload without a `text` key: every record the code writes has one.
- `generate_question` (main/backend/vec.py:130-139): a random choice from a fixed list with nothing to state beyond membership.
- Lone surrogate code points, which Python strings may hold and Dafny's `char` cannot; slicing to 2000 characters counts code points in both.

=== FILE: answer.dfy ===
/** `generate_answer` (main/backend/vec.py): classify the question, take
    the last five conversation turns, build the document context from the
    retrieved chunks, fill the fixed prompt template and call the
    generation service, turning any failure into an answer text. */
module Answer {
  import opened Results
  import opened Numbers
  import opened Strings
  import opened VectorIndex

  /** One (question, answer) pair of the conversation. */
  datatype Turn = Turn(question: string, answer: string)

  /** How many recent turns the prompt carries. */
  const WindowSize: nat := 5
  /** The character budget of the document context. */
  const ContextBudget: nat := 2000
  /** The context used when nothing was retrieved. */
  const NoContext := "No relevant document context found."

  // ---------------------------------------------------------------------
  // Task classification

  /** The request types the classifier distinguishes. */
  datatype Task = Summarize | Explain | Compare | General

  /** The keyword that selects each task (General has none). */
  function Keyword(t: Task): string
  {
    match t
    case Summarize => "summarize"
    case Explain => "explain"
    case Compare => "compare"
    case General => ""
  }

  /** The order in which keywords are tried: lower goes first. */
  function Priority(t: Task): nat
  {
    match t
    case Summarize => 0
    case Explain => 1
    case Compare => 2
    case General => 3
  }

  /** The instruction placed in the prompt for each task. */
  function Instruction(t: Task): string
  {
    match t
    case Summarize => "Summarize the document in detail."
    case Explain => "Provide a clear explanation."
    case Compare => "Compare the relevant concepts."
    case General => "Answer concisely and informatively."
  }

  const Instructions: set<string> := {
    "Summarize the document in detail.",
    "Provide a clear explanation.",
    "Compare the relevant concepts.",
    "Answer concisely and informatively."
  }

  /** The keyword test of `generate_answer`: the chosen task is the first
      one, in priority order, whose keyword occurs in the lower-cased
      question, and General only when none does. */
  function Classify(query: string): (t: Task)
    ensures t != General ==> Contains(Lower(query), Keyword(t))
    ensures forall u: Task :: Priority(u) < Priority(t) ==> !Contains(Lower(query), Keyword(u))
  {
    var q := Lower(query);
    if Contains(q, "summarize") then Summarize
    else if Contains(q, "explain") then Explain
    else if Contains(q, "compare") then Compare
    else General
  }

  /** The task line of the prompt is always one of the four instructions. */
  function TaskInstruction(query: string): (r: string)
    ensures r in Instructions
  {
    Instruction(Classify(query))
  }

  /** The classification does not depend on letter case. */
  lemma ClassifyIgnoresCase(query: string)
    ensures Classify(Lower(query)) == Classify(query)
  {
    LowerIdempotent(query);
  }

  /** A keyword containing a character the text lacks does not occur in it. */
  lemma AbsentChar(s: string, k: string, c: char)
    requires c in k && c !in s
    ensures !Contains(s, k)
  {
  }

  /** A question holding "summarize" anywhere, in any letter case, is a
      summarisation request, whatever other keywords it holds. */
  lemma SummarizeWins(pre: string, k: string, post: string)
    requires Lower(k) == "summarize"
    ensures Classify(pre + k + post) == Summarize
  {
    var q := Lower(pre + k + post);
    LowerConcat(pre + k, post);
    LowerConcat(pre, k);
    assert q == Lower(pre) + "summarize" + Lower(post);
    SlotAt(Lower(pre), "summarize", Lower(post));
    assert OccursAt(q, "summarize", |pre|);
  }

  /** The first keyword in priority order wins: a question mentioning both
      "summarize" and "explain" is a summarisation request. */
  lemma ClassifyPriorityExample()
    ensures Classify("please " + "summarize" + " and explain this") == Summarize
  {
    SummarizeWins("please ", "summarize", " and explain this");
  }

  /** Matching ignores case: "EXPLAIN" selects the explanation task. */
  lemma ClassifyUpperCaseExample()
    ensures Classify("Please EXPLAIN this") == Explain
  {
    var q := Lower("Please EXPLAIN this");
    assert q == "please explain this";
    assert q[7..14] == "explain";
    assert OccursAt(q, "explain", 7);
    AbsentChar(q, "summarize", 'm');
  }

  /** A question whose lower-cased form has neither an 'm' nor an 'x'
      cannot contain any keyword. */
  lemma NoKeywordIsGeneral(query: string)
    requires 'm' !in Lower(query) && 'x' !in Lower(query)
    ensures Classify(query) == General
  {
    AbsentChar(Lower(query), "summarize", 'm');
    AbsentChar(Lower(query), "explain", 'x');
    AbsentChar(Lower(query), "compare", 'm');
  }

  /** A question with no keyword gets the general instruction. */
  lemma ClassifyGeneralExample()
    ensures Classify("What is this about?") == General
  {
    var q := Lower("What is this about?");
    assert q == "what is this about?";
    NoKeywordIsGeneral("What is this about?");
  }

  // ---------------------------------------------------------------------
  // Conversation window

  /** `chat_history[-5:]`: the most recent turns, oldest first. */
  function Window(history: seq<Turn>): (w: seq<Turn>)
    ensures |w| == Min(WindowSize, |history|)
    ensures history == history[..|history| - |w|] + w
  {
    if |history| <= WindowSize then history else history[|history| - WindowSize..]
  }

  /** Appending a turn slides the window: the new turn enters at the end
      and, once the window is full, the oldest one leaves. */
  lemma WindowSlides(history: seq<Turn>, t: Turn)
    ensures Window(history + [t]) ==
              (if |Window(history)| < WindowSize then Window(history) else Window(history)[1..]) + [t]
  {
    var h' := history + [t];
    if |history| < WindowSize {
      assert Window(h') == h';
    } else if |history| == WindowSize {
      assert Window(history) == history;
      assert Window(h') == h'[1..];
      assert h'[1..] == history[1..] + [t];
    } else {
      var n := |history|;
      assert Window(history) == history[n - WindowSize..];
      assert Window(h') == h'[n + 1 - WindowSize..];
      assert h'[n + 1 - WindowSize..] == history[n - WindowSize..][1..] + [t];
    }
  }

  /** After seven turns the prompt sees turns three to seven. */
  lemma WindowAfterSeven(history: seq<Turn>)
    requires |history| == 7
    ensures Window(history) == [history[2], history[3], history[4], history[5], history[6]]
  {
  }

  /** One turn as two prompt lines. */
  function RenderTurn(t: Turn): (line: string)
  {
    "User: " + t.question + "\nAI: " + t.answer
  }

  /** The lines a turn contributes to the conversation block. */
  function TurnLines(t: Turn): seq<string>
  {
    ["User: " + t.question, "AI: " + t.answer]
  }

  /** A rendered turn is its two lines joined by a line break. */
  lemma RenderTurnLines(t: Turn)
    ensures Join(TurnLines(t), "\n") == RenderTurn(t)
  {
    var l := TurnLines(t);
    assert l[1..] == ["AI: " + t.answer];
  }

  /** `"\n".join(f"User: {q}\nAI: {a}" for q, a in window)`. */
  function HistoryText(window: seq<Turn>): (block: string)
  {
    Join(JoinEach(seq(|window|, i requires 0 <= i < |window| => TurnLines(window[i])), "\n"), "\n")
  }

  /** No line break inside either side of a turn. */
  predicate SingleLine(t: Turn)
  {
    '\n' !in t.question && '\n' !in t.answer
  }

  /** The conversation block reads back line by line: when no turn contains
      a line break, splitting it at line breaks gives "User: q", "AI: a"
      for each turn, oldest first. */
  lemma HistoryLines(window: seq<Turn>)
    requires |window| > 0
    requires forall i :: 0 <= i < |window| ==> SingleLine(window[i])
    ensures SplitOn(HistoryText(window), '\n') ==
              Concat(seq(|window|, i requires 0 <= i < |window| => TurnLines(window[i])))
  {
    var gs := seq(|window|, i requires 0 <= i < |window| => TurnLines(window[i]));
    JoinOfJoins(gs, "\n");
    var lines := Concat(gs);
    assert |lines| > 0 by {
      assert lines == gs[0] + Concat(gs[1..]);
    }
    forall k | 0 <= k < |lines| ensures '\n' !in lines[k] {
      ConcatMember(gs, k);
    }
    SplitOfJoin(lines, '\n');
  }

  /** Every line of a flattened list of line pairs comes from some pair. */
  lemma {:induction false} ConcatMember(gs: seq<seq<string>>, k: nat)
    requires k < |Concat(gs)|
    ensures exists i, j :: 0 <= i < |gs| && 0 <= j < |gs[i]| && Concat(gs)[k] == gs[i][j]
    decreases |gs|
  {
    assert Concat(gs) == gs[0] + Concat(gs[1..]);
    if k >= |gs[0]| {
      ConcatMember(gs[1..], k - |gs[0]|);
      var i, j :| 0 <= i < |gs[1..]| && 0 <= j < |gs[1..][i]| && Concat(gs[1..])[k - |gs[0]|] == gs[1..][i][j];
      assert Concat(gs)[k] == gs[i + 1][j];
    } else {
      assert Concat(gs)[k] == gs[0][k];
    }
  }

  /** Rendering a window and then one more turn. */
  lemma HistoryTextAppend(window: seq<Turn>, t: Turn)
    requires |window| > 0
    ensures HistoryText(window + [t]) == HistoryText(window) + "\n" + RenderTurn(t)
  {
    var w' := window + [t];
    var a := seq(|window|, i requires 0 <= i < |window| => TurnLines(window[i]));
    var all := seq(|w'|, i requires 0 <= i < |w'| => TurnLines(w'[i]));
    assert all == a + [TurnLines(t)];
    RenderTurnLines(t);
    assert JoinEach(all, "\n") == JoinEach(a, "\n") + [RenderTurn(t)];
    JoinAppend(JoinEach(a, "\n"), [RenderTurn(t)], "\n");
  }

  // ---------------------------------------------------------------------
  // Document context

  /** The texts of the retrieved chunks, in ranking order. */
  function Texts(chunks: seq<(string, real)>): (r: seq<string>)
    ensures |r| == |chunks|
    ensures forall i :: 0 <= i < |chunks| ==> r[i] == chunks[i].0
  {
    seq(|chunks|, i requires 0 <= i < |chunks| => chunks[i].0)
  }

  /** The context line: the chunk texts joined with single spaces and cut
      to the first 2000 characters, or the placeholder when nothing was
      retrieved. */
  function Context(chunks: seq<(string, real)>): (r: string)
    ensures |chunks| == 0 ==> r == NoContext
    ensures |chunks| > 0 ==>
              && r <= Join(Texts(chunks), " ")
              && |r| == Min(ContextBudget, |Join(Texts(chunks), " ")|)
  {
    if |chunks| == 0 then NoContext
    else
      var joined := Join(Texts(chunks), " ");
      joined[..Min(ContextBudget, |joined|)]
  }

  /** A long retrieval is cut to exactly the budget; a short one is kept
      whole. */
  lemma ContextTruncation(chunks: seq<(string, real)>)
    requires |chunks| > 0
    ensures |Join(Texts(chunks), " ")| > ContextBudget ==> |Context(chunks)| == ContextBudget
    ensures |Join(Texts(chunks), " ")| <= ContextBudget ==> Context(chunks) == Join(Texts(chunks), " ")
  {
  }

  // ---------------------------------------------------------------------
  // Prompt

  const Preamble := "\n    You are an AI assistant with memory and document retrieval capabilities.\n    Use past conversations and document context to generate the best response.\n    \n    Previous conversation:\n    "
  const ContextHeader := "\n    \n    Document context:\n    "
  const TaskLabel := "Task: "
  const TaskHeader := "\n\n    " + TaskLabel
  const QuestionLabel := "User question: "
  const QuestionHeader := "\n    \n    " + QuestionLabel
  const AnswerCue := "\n    \n    Answer:\n    "

  /** The prompt template filled with its four slots. */
  function Prompt(historyText: string, context: string, task: string, query: string): (p: string)
  {
    Preamble + historyText + ContextHeader + context + TaskHeader + task + QuestionHeader + query + AnswerCue
  }

  /** The middle of `pre + x + post` is `x`. */
  lemma SlotAt(pre: string, x: string, post: string)
    ensures (pre + x + post)[|pre|..|pre| + |x|] == x
  {
  }

  /** The prompt opens with the preamble (the system text and the
      conversation header); the four slots sit in this order — conversation,
      document context, task, question — each right after its fixed header,
      and the prompt ends with the answer cue; so every slot can be read back from the
      prompt given the lengths of the others. */
  lemma PromptLayout(h: string, c: string, t: string, q: string)
    ensures var p := Prompt(h, c, t, q);
            var a := |Preamble|;
            var b := a + |h| + |ContextHeader|;
            var d := b + |c| + |TaskHeader|;
            var e := d + |t| + |QuestionHeader|;
            && |p| == e + |q| + |AnswerCue|
            && p[..a] == Preamble
            && p[a..a + |h|] == h
            && p[b - |ContextHeader|..b] == ContextHeader
            && p[b..b + |c|] == c
            && p[d - |TaskHeader|..d] == TaskHeader
            && p[d..d + |t|] == t
            && p[e - |QuestionHeader|..e] == QuestionHeader
            && p[e..e + |q|] == q
            && p[e + |q|..] == AnswerCue
  {
    Layout(Preamble, h, ContextHeader, c, TaskHeader, t, QuestionHeader, q, AnswerCue);
  }

  /** The prompt mentions the conversation, the context, the task line and
      the question. */
  lemma PromptMentions(h: string, c: string, t: string, q: string)
    ensures Contains(Prompt(h, c, t, q), h)
    ensures Contains(Prompt(h, c, t, q), c)
    ensures Contains(Prompt(h, c, t, q), TaskLabel + t)
    ensures Contains(Prompt(h, c, t, q), QuestionLabel + q)
  {
    Mentions(Preamble, h, ContextHeader, c, "\n\n    ", TaskLabel, t, "\n    \n    ", QuestionLabel, q, AnswerCue);
  }

  /** `PromptMentions` over arbitrary template pieces, where the task and
      question headers each end in their label. */
  lemma Mentions(p0: string, h: string, p1: string, c: string, g2: string, l2: string, t: string,
                 g3: string, l3: string, q: string, p4: string)
    ensures var p := p0 + h + p1 + c + (g2 + l2) + t + (g3 + l3) + q + p4;
            && Contains(p, h) && Contains(p, c) && Contains(p, l2 + t) && Contains(p, l3 + q)
  {
    var p := p0 + h + p1 + c + (g2 + l2) + t + (g3 + l3) + q + p4;
    var a := |p0|;
    var b := a + |h| + |p1|;
    var d := b + |c| + |g2 + l2|;
    var e := d + |t| + |g3 + l3|;
    Layout(p0, h, p1, c, g2 + l2, t, g3 + l3, q, p4);
    assert OccursAt(p, h, a);
    assert OccursAt(p, c, b);
    SliceSuffix(p, d - |g2 + l2|, d, g2, l2);
    Adjacent(p, d - |l2|, d, d + |t|, l2, t);
    assert OccursAt(p, l2 + t, d - |l2|);
    SliceSuffix(p, e - |g3 + l3|, e, g3, l3);
    Adjacent(p, e - |l3|, e, e + |q|, l3, q);
    assert OccursAt(p, l3 + q, e - |l3|);
  }

  /** `PromptLayout` over arbitrary template pieces, peeled off the end one
      at a time. */
  lemma Layout(p0: string, h: string, p1: string, c: string, p2: string, t: string, p3: string, q: string, p4: string)
    ensures var p := p0 + h + p1 + c + p2 + t + p3 + q + p4;
            var a := |p0|;
            var b := a + |h| + |p1|;
            var d := b + |c| + |p2|;
            var e := d + |t| + |p3|;
            && |p| == e + |q| + |p4|
            && p[..a] == p0
            && p[a..a + |h|] == h
            && p[b - |p1|..b] == p1
            && p[b..b + |c|] == c
            && p[d - |p2|..d] == p2
            && p[d..d + |t|] == t
            && p[e - |p3|..e] == p3
            && p[e..e + |q|] == q
            && p[e + |q|..] == p4
  {
    var l1 := p0 + h;
    var l2 := l1 + p1;
    var l3 := l2 + c;
    var l4 := l3 + p2;
    var l5 := l4 + t;
    var l6 := l5 + p3;
    var l7 := l6 + q;
    var p := l7 + p4;
    assert p[..|p|] == p;
    PrefixPiece(p, l7, p4);
    PrefixPiece(p, l6, q);
    PrefixPiece(p, l5, p3);
    PrefixPiece(p, l4, t);
    PrefixPiece(p, l3, p2);
    PrefixPiece(p, l2, c);
    PrefixPiece(p, l1, p1);
    PrefixPiece(p, p0, h);
    assert p[|l7|..] == p4;
  }

  // ---------------------------------------------------------------------
  // Generation with failure containment

  const GenerateModel := "command"
  const MaxTokens: nat := 300
  const Temperature: real := 0.5
  const ErrorPrefix := "Error generating answer: "
  /** The message of the IndexError raised by `generations[0]` on an empty list. */
  const IndexErrorMessage := "list index out of range"

  /** One call of the generation service. */
  datatype GenerateRequest = GenerateRequest(model: string, prompt: string, maxTokens: nat, temperature: real)

  /** The generation service: the generated texts, or the failure. */
  type GenerateOracle = GenerateRequest -> Result<seq<string>>

  /** The request `generate_answer` sends for a prompt. */
  function Request(prompt: string): GenerateRequest
  {
    GenerateRequest(GenerateModel, prompt, MaxTokens, Temperature)
  }

  /** The `try`/`except` around the generation call: the first generated
      text with surrounding whitespace removed, or "Error generating
      answer: " followed by the failure message. */
  function Generate(prompt: string, gen: GenerateOracle): (answer: string)
    ensures gen(Request(prompt)).Err? ==> answer == ErrorPrefix + gen(Request(prompt)).message
    ensures gen(Request(prompt)).Ok? && |gen(Request(prompt)).value| == 0 ==>
              answer == ErrorPrefix + IndexErrorMessage
    ensures gen(Request(prompt)).Ok? && |gen(Request(prompt)).value| > 0 ==>
              && Trimmed(answer)
              && exists i: nat :: Surrounded(gen(Request(prompt)).value[0], answer, i)
  {
    match gen(Request(prompt))
    case Err(m) => ErrorPrefix + m
    case Ok(texts) =>
      if |texts| == 0 then ErrorPrefix + IndexErrorMessage
      else
        var answer := Strip(texts[0]);
        assert exists i: nat :: Surrounded(texts[0], answer, i);
        answer
  }

  /** A successful answer is exactly the generated text stripped: any
      split of that text into whitespace, a trimmed middle and whitespace
      has the answer as its middle. */
  lemma GenerateSuccessIsStripped(prompt: string, gen: GenerateOracle, pre: string, mid: string, post: string)
    requires gen(Request(prompt)).Ok? && |gen(Request(prompt)).value| > 0
    requires gen(Request(prompt)).value[0] == pre + mid + post
    requires AllSpace(pre) && AllSpace(post) && Trimmed(mid)
    ensures Generate(prompt, gen) == mid
  {
    StripUnique(gen(Request(prompt)).value[0], pre, mid, post);
  }

  // ---------------------------------------------------------------------
  // The whole of generate_answer

  /** The prompt `generate_answer(query)` builds, given the store, the
      conversation so far and the services. */
  function QueryPrompt(ix: Index, query: string, history: seq<Turn>, embed: EmbedOracle, search: SearchOracle): string
  {
    var chunks := SearchSimilarText(ix, query, embed, search, DefaultLimit);
    Prompt(HistoryText(Window(history)), Context(chunks), TaskInstruction(query), query)
  }

  /** `generate_answer(query)`. */
  function GenerateAnswer(ix: Index, query: string, history: seq<Turn>,
                          embed: EmbedOracle, search: SearchOracle, gen: GenerateOracle): (answer: string)
    ensures var out := gen(Request(QueryPrompt(ix, query, history, embed, search)));
            && (out.Err? ==> answer == ErrorPrefix + out.message)
            && (out.Ok? && |out.value| == 0 ==> answer == ErrorPrefix + IndexErrorMessage)
            && (out.Ok? && |out.value| > 0 ==> Trimmed(answer) && exists i: nat :: Surrounded(out.value[0], answer, i))
  {
    Generate(QueryPrompt(ix, query, history, embed, search), gen)
  }

  /** With nothing to retrieve — an empty store searched by a well-behaved
      search, or a failing query embedding — the prompt's context slot is
      the placeholder, and that is the prompt the generator receives. */
  lemma NoContextWhenNothingRetrieved(ix: Index, query: string, history: seq<Turn>, embed: EmbedOracle, search: SearchOracle)
    requires
      || GenerateEmbeddings(query, SearchQuery, embed).None?
      || (ix.points == map[] && forall v :: RankedHits(search(v, ix.points, DefaultLimit), ix.points, DefaultLimit))
    ensures QueryPrompt(ix, query, history, embed, search) ==
              Prompt(HistoryText(Window(history)), NoContext, TaskInstruction(query), query)
    ensures Contains(QueryPrompt(ix, query, history, embed, search), NoContext)
  {
    if GenerateEmbeddings(query, SearchQuery, embed).Some? {
      SearchResultsAreStoredTexts(ix, query, embed, search, DefaultLimit);
    }
    PromptMentions(HistoryText(Window(history)), NoContext, TaskInstruction(query), query);
  }
}

=== FILE: chunker.dfy ===
/** `chunk_text` (main/backend/utils.py): split a document into words and
    group them into consecutive, non-overlapping windows of `chunk_size`
    words, each window re-joined with single spaces. */
module Chunker {
  import opened Results
  import opened Numbers
  import opened Strings

  /** The window size `extract_text` uses. */
  const DefaultChunkSize: nat := 500

  /** Python's message for `range(0, n, 0)`. */
  const ZeroStepMessage := "range() arg 3 must not be zero"

  /** Length of the non-whitespace run that starts `s`. */
  function WordLen(s: string): (n: nat)
    ensures n <= |s|
    ensures forall k :: 0 <= k < n ==> !IsWhitespace(s[k])
    ensures n < |s| ==> IsWhitespace(s[n])
    decreases |s|
  {
    if |s| == 0 || IsWhitespace(s[0]) then 0 else 1 + WordLen(s[1..])
  }

  /** `text.split()`: the maximal runs of non-whitespace characters, in order. */
  function Words(s: string): (ws: seq<string>)
    ensures forall i :: 0 <= i < |ws| ==> IsWord(ws[i])
    decreases |s|
  {
    if |s| == 0 then []
    else if IsWhitespace(s[0]) then Words(s[1..])
    else
      var n := WordLen(s);
      [s[..n]] + Words(s[n..])
  }

  /** A text has no words exactly when it is empty or all whitespace. */
  lemma {:induction false} WordsEmptyIff(s: string)
    ensures Words(s) == [] <==> AllSpace(s)
    decreases |s|
  {
    if |s| > 0 {
      WordsEmptyIff(s[1..]);
      if IsWhitespace(s[0]) {
        assert AllSpace(s) <==> AllSpace(s[1..]) by {
          if AllSpace(s[1..]) {
            forall k | 0 <= k < |s| ensures IsWhitespace(s[k]) {
              if k > 0 { assert s[k] == s[1..][k - 1]; }
            }
          }
        }
      }
    }
  }

  /** Splitting at one whitespace character splits the word list there:
      `(a + c + b).split() == a.split() + b.split()`. */
  lemma {:induction false} WordsSplitAt(a: string, c: char, b: string)
    requires IsWhitespace(c)
    ensures Words(a + [c] + b) == Words(a) + Words(b)
    decreases |a|
  {
    var s := a + [c] + b;
    if |a| == 0 {
      assert s[1..] == b;
    } else if IsWhitespace(a[0]) {
      assert s[1..] == a[1..] + [c] + b;
      WordsSplitAt(a[1..], c, b);
    } else {
      var m := WordLen(a);
      var n := WordLen(s);
      assert n == m by {
        forall k | 0 <= k < m ensures s[k] == a[k] { }
        if m < |a| {
          assert s[m] == a[m];
        } else {
          assert s[m] == c;
        }
      }
      assert s[..n] == a[..m];
      assert s[n..] == a[m..] + [c] + b;
      WordsSplitAt(a[m..], c, b);
    }
  }

  /** A single word splits to itself. */
  lemma WordsOfWord(w: string)
    requires IsWord(w)
    ensures Words(w) == [w]
  {
    var n := WordLen(w);
    assert n == |w|;
    assert w[..n] == w;
    assert w[n..] == [];
  }

  /** Round trip: splitting words that were joined with single spaces gives
      the words back. */
  lemma {:induction false} WordsOfJoin(ws: seq<string>)
    requires forall i :: 0 <= i < |ws| ==> IsWord(ws[i])
    ensures Words(Join(ws, " ")) == ws
    decreases |ws|
  {
    if |ws| == 1 {
      WordsOfWord(ws[0]);
    } else if |ws| > 1 {
      assert Join(ws, " ") == ws[0] + [' '] + Join(ws[1..], " ");
      WordsSplitAt(ws[0], ' ', Join(ws[1..], " "));
      WordsOfWord(ws[0]);
      WordsOfJoin(ws[1..]);
      assert ws == [ws[0]] + ws[1..];
    }
  }

  /** Whitespace normalisation is idempotent: re-splitting the single-space
      join of a text's words gives the same words. */
  lemma WordsNormalised(s: string)
    ensures Words(Join(Words(s), " ")) == Words(s)
  {
    WordsOfJoin(Words(s));
  }

  /** `[words[i:i+size] for i in range(0, len(words), size)]`: consecutive,
      non-overlapping windows of `size` words; only the last may be shorter. */
  function Group(ws: seq<string>, size: nat): (gs: seq<seq<string>>)
    requires size >= 1
    decreases |ws|
  {
    if |ws| == 0 then []
    else
      var n := Min(size, |ws|);
      [ws[..n]] + Group(ws[n..], size)
  }

  /** The windows flatten back to the word list, in order; each holds 1 to
      `size` words, and all but the last exactly `size`. */
  lemma {:induction false} GroupShape(ws: seq<string>, size: nat)
    requires size >= 1
    ensures Concat(Group(ws, size)) == ws
    ensures forall i :: 0 <= i < |Group(ws, size)| ==> 1 <= |Group(ws, size)[i]| <= size
    ensures forall i :: 0 <= i < |Group(ws, size)| - 1 ==> |Group(ws, size)[i]| == size
    decreases |ws|
  {
    if |ws| > 0 {
      var n := Min(size, |ws|);
      var rest := Group(ws[n..], size);
      GroupShape(ws[n..], size);
      GroupUnfold(ws, size);
      assert ([ws[..n]] + rest)[1..] == rest;
      assert ws == ws[..n] + ws[n..];
    }
  }

  /** One step of distributivity, kept apart so that no other proof has to
      reason about products. */
  lemma MulStep(a: nat, d: nat)
    ensures (a + 1) * d == a * d + d
  {
  }

  lemma {:induction false} MulMonotone(a: nat, b: nat, d: nat)
    requires a <= b
    ensures a * d <= b * d
    decreases b - a
  {
    if a < b {
      MulMonotone(a, b - 1, d);
      MulStep(b - 1, d);
    }
  }

  /** Window arithmetic after dropping the first window: a slice of the
      remainder at offset `j` is the slice of the whole at `size + j`. */
  lemma WindowShift(ws: seq<string>, size: nat, j: nat, lo: nat)
    requires size <= |ws|
    requires lo == size + j
    requires j < |ws| - size
    ensures ws[size..][j..Min(j + size, |ws| - size)] == ws[lo..Min(lo + size, |ws|)]
  {
  }

  /** `i * size`, counted up one window at a time. */
  function Offset(i: nat, size: nat): nat
  {
    if i == 0 then 0 else Offset(i - 1, size) + size
  }

  lemma {:induction false} OffsetIsProduct(i: nat, size: nat)
    ensures Offset(i, size) == i * size
  {
    if i > 0 {
      OffsetIsProduct(i - 1, size);
      MulStep(i - 1, size);
    }
  }

  /** Window `i` starts `Offset(i, size)` words in. */
  lemma {:induction false} GroupWindowAt(ws: seq<string>, size: nat, i: nat)
    requires size >= 1
    requires i < |Group(ws, size)|
    ensures Offset(i, size) < |ws|
    ensures Group(ws, size)[i] == ws[Offset(i, size)..Min(Offset(i, size) + size, |ws|)]
    decreases i
  {
    var n := Min(size, |ws|);
    var rest := ws[n..];
    GroupUnfold(ws, size);
    if i > 0 {
      GroupWindowAt(rest, size, i - 1);
      WindowStep(ws, size, Group(ws, size), Group(rest, size), i, Offset(i - 1, size));
    }
  }

  /** The inductive step of `GroupWindowAt`, stated for any list of windows
      that starts with a full first window. */
  lemma WindowStep(ws: seq<string>, size: nat, gs: seq<seq<string>>, later: seq<seq<string>>, i: nat, j: nat)
    requires size >= 1
    requires 0 < i < |gs|
    requires gs == [ws[..Min(size, |ws|)]] + later
    requires j < |ws[Min(size, |ws|)..]|
    requires later[i - 1] == ws[Min(size, |ws|)..][j..Min(j + size, |ws[Min(size, |ws|)..]|)]
    ensures size + j < |ws|
    ensures gs[i] == ws[size + j..Min(size + j + size, |ws|)]
  {
    assert gs[i] == later[i - 1];
    WindowShift(ws, size, j, size + j);
  }

  /** Window `i` is exactly Python's slice `words[i*size : i*size+size]`. */
  lemma GroupWindow(ws: seq<string>, size: nat, i: nat)
    requires size >= 1
    requires i < |Group(ws, size)|
    ensures i * size < |ws|
    ensures Group(ws, size)[i] == ws[i * size..Min(i * size + size, |ws|)]
  {
    GroupWindowAt(ws, size, i);
    OffsetIsProduct(i, size);
  }

  /** One unfolding of `Group` on non-empty input. */
  lemma GroupUnfold(ws: seq<string>, size: nat)
    requires size >= 1
    requires |ws| > 0
    ensures Group(ws, size) == [ws[..Min(size, |ws|)]] + Group(ws[Min(size, |ws|)..], size)
  {
  }

  /** The number of windows is `ceil(len(words) / size)`, stated without
      division: `(count - 1) * size < len(words) <= count * size`. */
  lemma {:induction false} GroupCountBounds(ws: seq<string>, size: nat)
    requires size >= 1
    ensures |ws| == 0 <==> |Group(ws, size)| == 0
    ensures |Group(ws, size)| * size >= |ws|
    ensures |ws| > 0 ==> (|Group(ws, size)| - 1) * size < |ws|
    decreases |ws|
  {
    if |ws| > 0 {
      var n := Min(size, |ws|);
      var rest := ws[n..];
      var c := |Group(rest, size)|;
      GroupUnfold(ws, size);
      GroupCountBounds(rest, size);
      assert |Group(ws, size)| == c + 1;
      MulStep(c, size);
      if c > 0 {
        assert n == size;
        MulStep(c - 1, size);
      }
    }
  }

  /** Integer division is pinned down by the bracket it satisfies. */
  lemma DivBracket(x: nat, d: nat, q: nat)
    requires d >= 1
    requires q * d <= x < q * d + d
    ensures x / d == q
  {
    var q' := x / d;
    assert x == q' * d + x % d;
    if q' < q {
      MulMonotone(q' + 1, q, d);
      MulStep(q', d);
    } else if q' > q {
      MulMonotone(q + 1, q', d);
      MulStep(q, d);
    }
  }

  /** The number of windows is `ceil(len(words) / size)`. */
  lemma GroupCount(ws: seq<string>, size: nat)
    requires size >= 1
    ensures |Group(ws, size)| == (|ws| + size - 1) / size
  {
    var c := |Group(ws, size)|;
    GroupCountBounds(ws, size);
    if c == 0 {
      DivBracket(|ws| + size - 1, size, 0);
    } else {
      MulStep(c - 1, size);
      DivBracket(|ws| + size - 1, size, c);
    }
  }

  /** `chunk_text(text, chunk_size)`. A zero window size makes Python's
      `range` raise `ValueError`; a negative one makes the range empty. */
  function ChunkText(text: string, size: int): (r: Result<seq<string>>)
    ensures size == 0 <==> r.Err?
    ensures size < 0 ==> r == Ok([])
    ensures size >= 1 ==> r.Ok? && |r.value| == |Group(Words(text), size)|
  {
    if size == 0 then Err(ZeroStepMessage)
    else if size < 0 then Ok([])
    else Ok(JoinEach(Group(Words(text), size), " "))
  }

  /** A window of a word list holds only words. */
  lemma GroupOfWords(ws: seq<string>, size: nat, i: nat)
    requires size >= 1
    requires forall k :: 0 <= k < |ws| ==> IsWord(ws[k])
    requires i < |Group(ws, size)|
    ensures forall k :: 0 <= k < |Group(ws, size)[i]| ==> IsWord(Group(ws, size)[i][k])
  {
    GroupWindow(ws, size, i);
    var lo := i * size;
    var g := Group(ws, size)[i];
    assert g == ws[lo..Min(lo + size, |ws|)];
    forall k | 0 <= k < |g| ensures IsWord(g[k]) {
      assert g[k] == ws[lo + k];
    }
  }

  /** Each chunk holds exactly its window of words: re-splitting chunk `i`
      gives window `i`, which has between 1 and `size` words, exactly `size`
      unless it is the last. */
  lemma ChunkWords(text: string, size: int, i: nat)
    requires size >= 1
    requires i < |ChunkText(text, size).value|
    ensures Words(ChunkText(text, size).value[i]) == Group(Words(text), size)[i]
    ensures 1 <= |Words(ChunkText(text, size).value[i])| <= size
    ensures i < |ChunkText(text, size).value| - 1 ==> |Words(ChunkText(text, size).value[i])| == size
  {
    var ws := Words(text);
    var gs := Group(ws, size);
    GroupShape(ws, size);
    GroupOfWords(ws, size, i);
    assert ChunkText(text, size).value[i] == Join(gs[i], " ");
    WordsOfJoin(gs[i]);
  }

  /** Round trip: joining the chunks with single spaces reproduces the
      document's words joined with single spaces, so it splits back into
      exactly the document's word sequence. */
  lemma ChunkRoundTrip(text: string, size: int)
    requires size >= 1
    ensures Join(ChunkText(text, size).value, " ") == Join(Words(text), " ")
    ensures Words(Join(ChunkText(text, size).value, " ")) == Words(text)
  {
    var gs := Group(Words(text), size);
    GroupShape(Words(text), size);
    JoinOfJoins(gs, " ");
    WordsNormalised(text);
  }

  /** The number of chunks is `ceil(len(text.split()) / size)`. */
  lemma ChunkCount(text: string, size: int)
    requires size >= 1
    ensures |ChunkText(text, size).value| == (|Words(text)| + size - 1) / size
  {
    GroupCount(Words(text), size);
  }

  /** Empty or whitespace-only text, and only such text, yields no chunks. */
  lemma ChunkEmpty(text: string, size: int)
    requires size >= 1
    ensures ChunkText(text, size) == Ok([]) <==> AllSpace(text)
  {
    WordsEmptyIff(text);
    GroupCountBounds(Words(text), size);
  }
}

=== FILE: ingestion.dfy ===
/** The chunk-then-store part of `extract_text` (main/backend/utils.py):
    when the extracted text is non-empty, chunk it and make one
    `store_embeddings` attempt per chunk, in order. Decoding the uploaded
    PDF or plain-text file into that text happens before and is an input. */
module Ingestion {
  import opened Results
  import opened Strings
  import opened Chunker
  import opened VectorIndex

  /** Python truthiness of the extracted text: present and non-empty. */
  predicate Truthy(text: Option<string>)
  {
    text.Some? && text.value != ""
  }

  /** The store after one attempt per chunk, in order. Attempt `i` labels
      its record `ids(i)` and makes its own call to the embedding service,
      answered by `embeds(i)`, so two attempts on the same chunk text may
      fare differently. */
  function StoreAll(ix: Index, chunks: seq<string>, embeds: nat -> EmbedOracle, ids: nat -> string): (r: Index)
    decreases |chunks|
  {
    if |chunks| == 0 then ix
    else
      var n := |chunks| - 1;
      StoreEmbeddings(StoreAll(ix, chunks[..n], embeds, ids), chunks[n], embeds(n), ids(n)).index
  }

  /** What any ingestion leaves behind: the collections as they were, no id
      lost, at most one new record per chunk, and every record that is new or
      changed holding one of the chunks. */
  lemma {:induction false} StoreAllFrame(ix: Index, chunks: seq<string>, embeds: nat -> EmbedOracle, ids: nat -> string)
    ensures var r := StoreAll(ix, chunks, embeds, ids);
            && r.collections == ix.collections
            && ix.points.Keys <= r.points.Keys
            && |r.points| <= |ix.points| + |chunks|
            && (forall id :: id in r.points ==> (id in ix.points && r.points[id] == ix.points[id]) || r.points[id].text in chunks)
    decreases |chunks|
  {
    if |chunks| > 0 {
      var n := |chunks| - 1;
      var pre := chunks[..n];
      var before := StoreAll(ix, pre, embeds, ids);
      var r := StoreAll(ix, chunks, embeds, ids);
      assert r == StoreEmbeddings(before, chunks[n], embeds(n), ids(n)).index;
      StoreAllFrame(ix, pre, embeds, ids);
      StoreFrame(before, chunks[n], embeds(n), ids(n));
      forall id | id in r.points
        ensures (id in ix.points && r.points[id] == ix.points[id]) || r.points[id].text in chunks
      {
        if !(id in before.points && r.points[id] == before.points[id]) {
          assert r.points[id].text == chunks[n];
        } else if !(id in ix.points && before.points[id] == ix.points[id]) {
          var t := before.points[id].text;
          assert t in pre;
          var k :| 0 <= k < n && pre[k] == t;
          assert chunks[k] == t;
        }
      }
    }
  }

  /** How many of the chunks get an embedding in document mode. */
  function CountEmbedded(chunks: seq<string>, embeds: nat -> EmbedOracle): (n: nat)
    ensures n <= |chunks|
    decreases |chunks|
  {
    if |chunks| == 0 then 0
    else
      var k := |chunks| - 1;
      CountEmbedded(chunks[..k], embeds) + (if GenerateEmbeddings(chunks[k], SearchDocument, embeds(k)).Some? then 1 else 0)
  }

  /** Every record the ingestion adds is labelled with one of the ids it used. */
  lemma {:induction false} StoreAllNewIds(ix: Index, chunks: seq<string>, embeds: nat -> EmbedOracle, ids: nat -> string, id: string)
    requires id in StoreAll(ix, chunks, embeds, ids).points
    requires id !in ix.points
    ensures exists i :: 0 <= i < |chunks| && ids(i) == id
    decreases |chunks|
  {
    var n := |chunks| - 1;
    var before := StoreAll(ix, chunks[..n], embeds, ids);
    StoreFrame(before, chunks[n], embeds(n), ids(n));
    if id != ids(n) {
      StoreAllNewIds(ix, chunks[..n], embeds, ids, id);
    }
  }

  /** Ids that are fresh and distinct stay unused until their own attempt. */
  lemma NextIdUnused(ix: Index, chunks: seq<string>, embeds: nat -> EmbedOracle, ids: nat -> string)
    requires |chunks| > 0
    requires forall k :: 0 <= k < |chunks| ==> ids(k) !in ix.points
    requires forall k, j :: 0 <= k < j < |chunks| ==> ids(k) != ids(j)
    ensures ids(|chunks| - 1) !in StoreAll(ix, chunks[..|chunks| - 1], embeds, ids).points
  {
    var n := |chunks| - 1;
    if ids(n) in StoreAll(ix, chunks[..n], embeds, ids).points {
      StoreAllNewIds(ix, chunks[..n], embeds, ids, ids(n));
    }
  }

  /** With fresh, distinct ids the ingestion adds exactly one record per
      chunk whose embedding succeeded. */
  lemma {:induction false} StoreAllCount(ix: Index, chunks: seq<string>, embeds: nat -> EmbedOracle, ids: nat -> string)
    requires forall k :: 0 <= k < |chunks| ==> ids(k) !in ix.points
    requires forall k, j :: 0 <= k < j < |chunks| ==> ids(k) != ids(j)
    ensures |StoreAll(ix, chunks, embeds, ids).points| == |ix.points| + CountEmbedded(chunks, embeds)
    decreases |chunks|
  {
    if |chunks| > 0 {
      var n := |chunks| - 1;
      var pre := chunks[..n];
      StoreAllCount(ix, pre, embeds, ids);
      NextIdUnused(ix, chunks, embeds, ids);
      CountStep(ix, chunks, embeds, ids);
    }
  }

  /** The inductive step of `StoreAllCount`, kept apart from its hypotheses
      about ids. */
  lemma CountStep(ix: Index, chunks: seq<string>, embeds: nat -> EmbedOracle, ids: nat -> string)
    requires |chunks| > 0
    requires ids(|chunks| - 1) !in StoreAll(ix, chunks[..|chunks| - 1], embeds, ids).points
    requires |StoreAll(ix, chunks[..|chunks| - 1], embeds, ids).points| == |ix.points| + CountEmbedded(chunks[..|chunks| - 1], embeds)
    ensures |StoreAll(ix, chunks, embeds, ids).points| == |ix.points| + CountEmbedded(chunks, embeds)
  {
    var n := |chunks| - 1;
    StoreFreshSize(StoreAll(ix, chunks[..n], embeds, ids), chunks[n], embeds(n), ids(n));
  }

  /** With fresh, distinct ids, attempt `i` leaves a record under `ids(i)`
      exactly when chunk `i` was embedded, and that record holds chunk `i`:
      a chunk whose embedding failed is dropped without trace. */
  lemma {:induction false} StoreAllRecords(ix: Index, chunks: seq<string>, embeds: nat -> EmbedOracle, ids: nat -> string, i: nat)
    requires forall k :: 0 <= k < |chunks| ==> ids(k) !in ix.points
    requires forall k, j :: 0 <= k < j < |chunks| ==> ids(k) != ids(j)
    requires i < |chunks|
    ensures ids(i) in StoreAll(ix, chunks, embeds, ids).points <==> GenerateEmbeddings(chunks[i], SearchDocument, embeds(i)).Some?
    ensures ids(i) in StoreAll(ix, chunks, embeds, ids).points ==> StoreAll(ix, chunks, embeds, ids).points[ids(i)].text == chunks[i]
    decreases |chunks|
  {
    var n := |chunks| - 1;
    var pre := chunks[..n];
    var before := StoreAll(ix, pre, embeds, ids);
    var after := StoreEmbeddings(before, chunks[n], embeds(n), ids(n)).index;
    assert StoreAll(ix, chunks, embeds, ids) == after;
    NextIdUnused(ix, chunks, embeds, ids);
    StoreFresh(before, chunks[n], embeds(n), ids(n));
    if i < n {
      StoreAllRecords(ix, pre, embeds, ids, i);
      assert ids(i) != ids(n);
      assert pre[i] == chunks[i];
      assert ids(i) in after.points <==> ids(i) in before.points;
      assert ids(i) in before.points <==> GenerateEmbeddings(chunks[i], SearchDocument, embeds(i)).Some?;
    } else {
      assert ids(n) in after.points <==> GenerateEmbeddings(chunks[n], SearchDocument, embeds(n)).Some?;
    }
  }

  /** The `for chunk in chunks: store_embeddings(chunk)` loop: one attempt
      per chunk, in chunk order. */
  method StoreChunks(ix: Index, chunks: seq<string>, embeds: nat -> EmbedOracle, ids: nat -> string)
    returns (ix': Index, attempts: seq<string>)
    ensures attempts == chunks
    ensures ix' == StoreAll(ix, chunks, embeds, ids)
  {
    ix' := ix;
    attempts := [];
    var i := 0;
    while i < |chunks|
      invariant 0 <= i <= |chunks|
      invariant attempts == chunks[..i]
      invariant ix' == StoreAll(ix, attempts, embeds, ids)
    {
      var outcome := StoreEmbeddings(ix', chunks[i], embeds(i), ids(i));
      ix' := outcome.index;
      attempts := attempts + [chunks[i]];
      assert attempts[..i] == chunks[..i];
      i := i + 1;
    }
    assert chunks[..i] == chunks;
  }

  /** The attempts `extract_text` makes, the store afterwards, and the text
      it returns. */
  method ExtractText(text: Option<string>, ix: Index, embeds: nat -> EmbedOracle, ids: nat -> string)
    returns (out: Option<string>, ix': Index, attempts: seq<string>)
    ensures out == text
    ensures !Truthy(text) ==> attempts == [] && ix' == ix
    ensures Truthy(text) ==> attempts == ChunkText(text.value, DefaultChunkSize).value
    ensures ix' == StoreAll(ix, attempts, embeds, ids)
  {
    out := text;
    if Truthy(text) {
      var chunks := ChunkText(text.value, DefaultChunkSize).value;
      ix', attempts := StoreChunks(ix, chunks, embeds, ids);
    } else {
      ix', attempts := ix, [];
    }
  }

  /** What ingesting a document leaves behind: at most one new record per
      chunk, never a record whose text is not one of the chunks, and for a
      blank document (empty or whitespace only) no attempt at all. */
  lemma IngestionBounds(text: string, ix: Index, embeds: nat -> EmbedOracle, ids: nat -> string)
    ensures var chunks := ChunkText(text, DefaultChunkSize).value;
            var r := StoreAll(ix, chunks, embeds, ids);
            && |r.points| <= |ix.points| + |chunks|
            && (forall id :: id in r.points && id !in ix.points ==> r.points[id].text in chunks)
            && (AllSpace(text) ==> chunks == [] && r == ix)
  {
    StoreAllFrame(ix, ChunkText(text, DefaultChunkSize).value, embeds, ids);
    if AllSpace(text) {
      ChunkEmpty(text, DefaultChunkSize);
    }
  }
}

=== FILE: numbers.dfy ===
/** Integer helpers shared by the slicing code. */
module Numbers {

  /** Python's `min` on two integers; slice bounds are clipped with it. */
  function Min(a: int, b: int): (m: int)
    ensures m <= a && m <= b
    ensures m == a || m == b
  {
    if a < b then a else b
  }
}

=== FILE: results.dfy ===
/** Failure-carrying values used wherever the system converts an exception
    or a missing value into an ordinary return. */
module Results {

  /** A value that may be absent (Python's `None`). */
  datatype Option<+T> = None | Some(value: T)

  /** The outcome of a call into an external service: a value, or the
      text of the exception it raised. */
  datatype Result<+T> = Ok(value: T) | Err(message: string)
}

=== FILE: session.dfy ===
/** One interactive session (main/app.py): the store, the full
    conversation and the text of the last uploaded document. Uploading runs
    the ingestion; asking a non-empty question runs `generate_answer` on the
    conversation so far and then appends the (question, answer) turn. */
module Session {
  import opened Results
  import opened VectorIndex
  import opened Answer
  import opened Ingestion
  import opened Chunker

  datatype Session = Session(index: Index, history: seq<Turn>, documentText: Option<string>)

  /** The store right after the backend module is loaded: an in-memory
      store holding only the freshly created collection. */
  function InitialStore(): (ix: Index)
    ensures ix.collections == [Collection(CollectionName, CollectionParams)]
    ensures CountNamed(ix.collections, CollectionName) == 1
    ensures ix.points == map[]
  {
    EnsureCollection(Index([], map[]))
  }

  /** The session before any interaction: the initial store, no
      conversation and no document. */
  function Start(): (s: Session)
    ensures s.index == InitialStore()
    ensures s.history == [] && s.documentText == None
  {
    Session(InitialStore(), [], None)
  }

  /** Uploading a file whose extracted text is `text` (None when the file
      type is neither PDF nor plain text): ingest it and remember it. */
  method Upload(s: Session, text: Option<string>, embeds: nat -> EmbedOracle, ids: nat -> string)
    returns (s': Session, attempts: seq<string>)
    ensures s'.documentText == text
    ensures s'.history == s.history
    ensures s'.index == StoreAll(s.index, attempts, embeds, ids)
    ensures !Truthy(text) ==> attempts == [] && s'.index == s.index
    ensures Truthy(text) ==> attempts == ChunkText(text.value, DefaultChunkSize).value
  {
    var out, ix, att := ExtractText(text, s.index, embeds, ids);
    s' := s.(index := ix, documentText := out);
    attempts := att;
  }

  /** One pass of the chat input: nothing happens without a non-empty
      question; otherwise the answer is computed from the conversation so
      far and the turn is appended — also when the answer is an error
      text. The store and the document are not touched. */
  function Ask(s: Session, query: Option<string>, embed: EmbedOracle, search: SearchOracle, gen: GenerateOracle): (r: (Session, Option<string>))
    ensures query.None? || query == Some("") ==> r == (s, None)
    ensures query.Some? && query.value != "" ==>
              && r.1 == Some(GenerateAnswer(s.index, query.value, s.history, embed, search, gen))
              && r.0.history == s.history + [Turn(query.value, r.1.value)]
              && r.0.index == s.index
              && r.0.documentText == s.documentText
  {
    if query.None? || query.value == "" then (s, None)
    else
      var answer := GenerateAnswer(s.index, query.value, s.history, embed, search, gen);
      (s.(history := s.history + [Turn(query.value, answer)]), Some(answer))
  }

  /** A failing generation service still yields a turn, whose answer is the
      visible error text: the prefix followed by the service's message. */
  lemma AskRecordsFailures(s: Session, q: string, embed: EmbedOracle, search: SearchOracle, gen: GenerateOracle)
    requires q != ""
    requires gen(Request(QueryPrompt(s.index, q, s.history, embed, search))).Err?
    ensures var r := Ask(s, Some(q), embed, search, gen);
            && |r.0.history| == |s.history| + 1
            && r.0.history[|s.history|].question == q
            && r.0.history[|s.history|].answer == ErrorPrefix + gen(Request(QueryPrompt(s.index, q, s.history, embed, search))).message
            && r.1 == Some(r.0.history[|s.history|].answer)
  {
  }

  /** The conversation is append-only: earlier turns survive every ask, in
      order, so the window read by the next prompt slides over them. */
  lemma AskKeepsHistory(s: Session, query: Option<string>, embed: EmbedOracle, search: SearchOracle, gen: GenerateOracle)
    ensures s.history <= Ask(s, query, embed, search, gen).0.history
    ensures var h := Ask(s, query, embed, search, gen).0.history;
            |h| > |s.history| ==> Window(h) == (if |Window(s.history)| < WindowSize then Window(s.history) else Window(s.history)[1..]) + [h[|h| - 1]]
  {
    var h := Ask(s, query, embed, search, gen).0.history;
    if |h| > |s.history| {
      WindowSlides(s.history, h[|h| - 1]);
    }
  }
}

=== FILE: strings.dfy ===
/** String operations of the Python runtime that the pipeline relies on:
    whitespace classification, `str.join`, substring search, `str.lower`
    and `str.strip`. */
module Strings {

  /** Python's `str.isspace` for one character: the separator set used by
      `str.split()` and `str.strip()` when called without arguments. */
  predicate IsWhitespace(c: char)
  {
    || ('\t' <= c <= '\r')
    || ('\U{1C}' <= c <= '\U{1F}')
    || c == ' '
    || c == '\U{85}'
    || c == '\U{A0}'
    || c == '\U{1680}'
    || ('\U{2000}' <= c <= '\U{200A}')
    || c == '\U{2028}'
    || c == '\U{2029}'
    || c == '\U{202F}'
    || c == '\U{205F}'
    || c == '\U{3000}'
  }

  /** Every character of `s` is whitespace (vacuously true of ""). */
  predicate AllSpace(s: string)
  {
    forall k :: 0 <= k < |s| ==> IsWhitespace(s[k])
  }

  /** A word: a non-empty run of non-whitespace characters. */
  predicate IsWord(w: string)
  {
    |w| > 0 && forall k :: 0 <= k < |w| ==> !IsWhitespace(w[k])
  }

  /** `sep.join(parts)`. */
  function Join(parts: seq<string>, sep: string): (r: string)
    decreases |parts|
  {
    if |parts| == 0 then ""
    else if |parts| == 1 then parts[0]
    else parts[0] + sep + Join(parts[1..], sep)
  }

  /** Joining two non-empty lists is joining each and gluing with `sep`. */
  lemma {:induction false} JoinAppend(a: seq<string>, b: seq<string>, sep: string)
    requires |a| > 0 && |b| > 0
    ensures Join(a + b, sep) == Join(a, sep) + sep + Join(b, sep)
    decreases |a|
  {
    if |a| == 1 {
      assert (a + b)[1..] == b;
    } else {
      assert (a + b)[1..] == a[1..] + b;
      JoinAppend(a[1..], b, sep);
    }
  }

  /** Flattening a list of lists, in order. */
  function Concat<T>(gs: seq<seq<T>>): (r: seq<T>)
    decreases |gs|
  {
    if |gs| == 0 then [] else gs[0] + Concat(gs[1..])
  }

  lemma {:induction false} ConcatAppend<T>(a: seq<seq<T>>, b: seq<seq<T>>)
    ensures Concat(a + b) == Concat(a) + Concat(b)
    decreases |a|
  {
    if |a| == 0 {
      assert a + b == b;
    } else {
      assert (a + b)[1..] == a[1..] + b;
      ConcatAppend(a[1..], b);
    }
  }

  /** `k` occurs in `s` starting at offset `i`. */
  predicate OccursAt(s: string, k: string, i: nat)
  {
    i + |k| <= |s| && s[i..i + |k|] == k
  }

  /** `[sep.join(g) for g in gs]`. */
  function JoinEach(gs: seq<seq<string>>, sep: string): (r: seq<string>)
    ensures |r| == |gs|
    ensures forall i :: 0 <= i < |gs| ==> r[i] == Join(gs[i], sep)
  {
    seq(|gs|, i requires 0 <= i < |gs| => Join(gs[i], sep))
  }

  /** Joining the joined windows is joining the flattened windows. */
  lemma {:induction false} JoinOfJoins(gs: seq<seq<string>>, sep: string)
    requires forall i :: 0 <= i < |gs| ==> |gs[i]| > 0
    ensures Join(JoinEach(gs, sep), sep) == Join(Concat(gs), sep)
    decreases |gs|
  {
    if |gs| == 1 {
      assert Concat(gs) == gs[0] + Concat(gs[1..]);
      assert gs[0] + Concat(gs[1..]) == gs[0];
    } else if |gs| > 1 {
      JoinOfJoins(gs[1..], sep);
      assert JoinEach(gs, sep)[1..] == JoinEach(gs[1..], sep);
      assert |Concat(gs[1..])| > 0 by {
        assert |gs[1..][0]| > 0;
        assert Concat(gs[1..]) == gs[1..][0] + Concat(gs[1..][1..]);
      }
      JoinAppend(gs[0], Concat(gs[1..]), sep);
    }
  }

  /** Python's `k in s` for strings: `k` occurs as a contiguous substring. */
  function Contains(s: string, k: string): (r: bool)
    ensures r <==> exists i: nat :: OccursAt(s, k, i)
    decreases |s|
  {
    if k <= s then
      assert OccursAt(s, k, 0);
      true
    else if |s| == 0 then
      false
    else
      var rest := Contains(s[1..], k);
      assert forall i: nat :: OccursAt(s[1..], k, i) <==> OccursAt(s, k, i + 1) by {
        forall i: nat ensures OccursAt(s[1..], k, i) <==> OccursAt(s, k, i + 1) {
          if i + 1 + |k| <= |s| {
            assert s[1..][i..i + |k|] == s[i + 1..i + 1 + |k|];
          }
        }
      }
      assert !OccursAt(s, k, 0);
      assert (exists i: nat :: OccursAt(s, k, i)) ==> exists i: nat :: OccursAt(s[1..], k, i) by {
        if exists i: nat :: OccursAt(s, k, i) {
          var i: nat :| OccursAt(s, k, i);
          assert i > 0;
          assert OccursAt(s[1..], k, i - 1);
        }
      }
      rest
  }

  /** Reading `pre` and then `x` back from a prefix `pre + x` of `p`. */
  lemma PrefixPiece(p: string, pre: string, x: string)
    requires |pre| + |x| <= |p|
    requires p[..|pre| + |x|] == pre + x
    ensures p[..|pre|] == pre
    ensures p[|pre|..|pre| + |x|] == x
  {
    forall k | 0 <= k < |pre| ensures p[k] == pre[k] {
      assert p[k] == p[..|pre| + |x|][k];
    }
    forall k | 0 <= k < |x| ensures p[|pre| + k] == x[k] {
      assert p[|pre| + k] == p[..|pre| + |x|][|pre| + k];
    }
  }

  /** Two adjacent slices read together. */
  lemma Adjacent(p: string, i: nat, j: nat, k: nat, a: string, b: string)
    requires i <= j <= k <= |p|
    requires p[i..j] == a && p[j..k] == b
    ensures p[i..k] == a + b
  {
    forall n | 0 <= n < k - i ensures p[i..k][n] == (a + b)[n] {
      if n < j - i { assert p[i + n] == p[i..j][n]; } else { assert p[i + n] == p[j..k][n - (j - i)]; }
    }
  }

  /** The tail `l` of a slice reading `g + l`. */
  lemma SliceSuffix(p: string, i: nat, j: nat, g: string, l: string)
    requires i <= j <= |p|
    requires p[i..j] == g + l
    ensures |l| <= j
    ensures p[j - |l|..j] == l
  {
    forall n | 0 <= n < |l| ensures p[j - |l| + n] == l[n] {
      assert p[j - |l| + n] == p[i..j][|g| + n];
    }
  }

  /** `str.lower` on one character, for the ASCII letters. */
  function LowerChar(c: char): char
  {
    if 'A' <= c <= 'Z' then (c as int + 32) as char else c
  }

  /** `str.lower` restricted to ASCII case folding. */
  function Lower(s: string): (r: string)
    ensures |r| == |s|
    ensures forall i :: 0 <= i < |s| ==> r[i] == LowerChar(s[i])
  {
    seq(|s|, i requires 0 <= i < |s| => LowerChar(s[i]))
  }

  /** Lower-casing twice is lower-casing once. */
  lemma LowerIdempotent(s: string)
    ensures Lower(Lower(s)) == Lower(s)
  {
  }

  /** Lower-casing works character by character, so it distributes over
      concatenation. */
  lemma LowerConcat(a: string, b: string)
    ensures Lower(a + b) == Lower(a) + Lower(b)
  {
  }

  /** Length of the whitespace run that starts `s`. */
  function LeadingSpace(s: string): (n: nat)
    ensures n <= |s|
    ensures AllSpace(s[..n])
    ensures n < |s| ==> !IsWhitespace(s[n])
    decreases |s|
  {
    if |s| == 0 || !IsWhitespace(s[0]) then 0 else 1 + LeadingSpace(s[1..])
  }

  /** Length of the whitespace run that ends `s`. */
  function TrailingSpace(s: string): (n: nat)
    ensures n <= |s|
    ensures AllSpace(s[|s| - n..])
    ensures n < |s| ==> !IsWhitespace(s[|s| - n - 1])
    decreases |s|
  {
    if |s| == 0 || !IsWhitespace(s[|s| - 1]) then 0 else 1 + TrailingSpace(s[..|s| - 1])
  }

  /** The shape `str.strip()` leaves: empty, or starting and ending with a
      non-whitespace character. */
  predicate Trimmed(t: string)
  {
    t == [] || (!IsWhitespace(t[0]) && !IsWhitespace(t[|t| - 1]))
  }

  /** `r` sits at offset `i` of `s` with only whitespace before and after. */
  predicate Surrounded(s: string, r: string, i: nat)
  {
    && i + |r| <= |s|
    && s[i..i + |r|] == r
    && AllSpace(s[..i])
    && AllSpace(s[i + |r|..])
  }

  /** Python's `str.strip()`: drop leading and trailing whitespace. */
  function Strip(s: string): (r: string)
    ensures exists i: nat :: Surrounded(s, r, i)
    ensures Trimmed(r)
  {
    var i := LeadingSpace(s);
    var j := TrailingSpace(s[i..]);
    TailOfSuffix(s, i, j);
    StripShape(s, i, j);
    s[i..|s| - j]
  }

  /** The whitespace run ending `s[i..]` is the one ending `s`. */
  lemma TailOfSuffix(s: string, i: nat, j: nat)
    requires i <= |s| && j <= |s| - i
    requires AllSpace(s[i..][|s| - i - j..])
    requires j < |s| - i ==> !IsWhitespace(s[i..][|s| - i - j - 1])
    ensures AllSpace(s[|s| - j..])
    ensures j < |s| - i ==> !IsWhitespace(s[|s| - j - 1])
  {
    assert s[i..][|s| - i - j..] == s[|s| - j..];
  }

  lemma StripShape(s: string, i: nat, j: nat)
    requires i <= |s| && j <= |s| - i
    requires AllSpace(s[..i]) && AllSpace(s[|s| - j..])
    requires i < |s| ==> !IsWhitespace(s[i])
    requires j < |s| - i ==> !IsWhitespace(s[|s| - j - 1])
    ensures Surrounded(s, s[i..|s| - j], i)
    ensures Trimmed(s[i..|s| - j])
  {
    var r := s[i..|s| - j];
    if r != [] {
      assert r[0] == s[i];
      assert r[|r| - 1] == s[|s| - j - 1];
    }
  }

  /** `Strip` is the only way to split `s` into whitespace, a trimmed middle
      and whitespace: the decomposition its contract describes is unique. */
  lemma {:induction false} StripUnique(s: string, p: string, t: string, q: string)
    requires s == p + t + q
    requires AllSpace(p) && AllSpace(q) && Trimmed(t)
    ensures Strip(s) == t
  {
    var i := LeadingSpace(s);
    if t == [] {
      assert AllSpace(s) by {
        forall k | 0 <= k < |s| ensures IsWhitespace(s[k]) {
          if k < |p| { assert s[k] == p[k]; } else { assert s[k] == q[k - |p|]; }
        }
      }
      assert i == |s|;
      assert s[i..] == [];
    } else {
      assert s[|p|] == t[0];
      assert i == |p|;
      var u := s[i..];
      assert u == t + q;
      var j := TrailingSpace(u);
      assert u[|u| - |q| - 1] == t[|t| - 1];
      assert j == |q|;
      assert u[..|u| - j] == t;
    }
  }

  /** Stripping an already stripped string changes nothing. */
  lemma StripIdempotent(s: string)
    ensures Strip(Strip(s)) == Strip(s)
  {
    var r := Strip(s);
    assert r == "" + r + "";
    StripUnique(r, "", r, "");
  }

  /** Position of the first `c` in `s`, or `|s|` when there is none. */
  function IndexOf(s: string, c: char): (i: nat)
    ensures i <= |s|
    ensures forall k :: 0 <= k < i ==> s[k] != c
    ensures i < |s| ==> s[i] == c
    decreases |s|
  {
    if |s| == 0 || s[0] == c then 0 else 1 + IndexOf(s[1..], c)
  }

  /** Python's `s.split(c)` for a one-character separator: the pieces
      between occurrences of `c`, always at least one. */
  function SplitOn(s: string, c: char): (parts: seq<string>)
    ensures |parts| > 0
    ensures forall i :: 0 <= i < |parts| ==> c !in parts[i]
    decreases |s|
  {
    var i := IndexOf(s, c);
    if i == |s| then [s] else [s[..i]] + SplitOn(s[i + 1..], c)
  }

  /** Round trip: splitting a join on its separator gives the parts back,
      provided no part contains the separator. */
  lemma {:induction false} SplitOfJoin(parts: seq<string>, c: char)
    requires |parts| > 0
    requires forall i :: 0 <= i < |parts| ==> c !in parts[i]
    ensures SplitOn(Join(parts, [c]), c) == parts
    decreases |parts|
  {
    var s := Join(parts, [c]);
    var p := parts[0];
    if |parts| == 1 {
      assert IndexOf(s, c) == |s|;
    } else {
      assert s == p + [c] + Join(parts[1..], [c]);
      assert s[|p|] == c;
      assert IndexOf(s, c) == |p|;
      assert s[..|p|] == p;
      assert s[|p| + 1..] == Join(parts[1..], [c]);
      SplitOfJoin(parts[1..], c);
      assert parts == [p] + parts[1..];
    }
  }
}

=== FILE: vector_index.dfy ===
/** The embedding and vector-store wrappers of main/backend/vec.py: the
    one-time collection setup, `generate_embeddings`, `store_embeddings` and
    `search_similar_text`. The embedding service and the similarity search
    are oracles passed in as functions; the store is a plain value. */
module VectorIndex {
  import opened Results

  const CollectionName := "text_embeddings"
  const Dimension: nat := 1024
  const EmbedModel := "embed-english-v3.0"
  /** How many hits a query asks for by default. */
  const DefaultLimit: nat := 3

  /** The similarity metrics a collection can be configured with. */
  datatype Distance = Cosine | Euclid | Dot | Manhattan

  datatype VectorParams = VectorParams(size: nat, distance: Distance)

  datatype Collection = Collection(name: string, params: VectorParams)

  /** An embedding; its numeric content is never inspected by the model. */
  type Vector = seq<real>

  /** A stored record: its vector and the payload `{"text": ...}`. */
  datatype Point = Point(vector: Vector, text: string)

  /** The store: its collection list and the records of `text_embeddings`,
      keyed by their hexadecimal ids. */
  datatype Index = Index(collections: seq<Collection>, points: map<string, Point>)

  /** The embedding flavour: stored documents and queries are encoded
      differently. */
  datatype InputType = SearchDocument | SearchQuery

  /** One call of the embedding service. */
  datatype EmbedRequest = EmbedRequest(texts: seq<string>, model: string, inputType: InputType)

  /** The embedding service: the vectors of the response, or the failure. */
  type EmbedOracle = EmbedRequest -> Result<seq<Vector>>

  /** One search hit: the record's id, its payload text and its score. */
  datatype Hit = Hit(id: string, text: string, score: real)

  /** The similarity search: query vector, stored records, limit to ranked hits. */
  type SearchOracle = (Vector, map<string, Point>, nat) -> seq<Hit>

  /** The parameters the setup creates `text_embeddings` with. */
  const CollectionParams := VectorParams(Dimension, Cosine)

  /** The names in a collection list. */
  function Names(cols: seq<Collection>): (r: seq<string>)
    ensures |r| == |cols|
    ensures forall i :: 0 <= i < |cols| ==> r[i] == cols[i].name
  {
    seq(|cols|, i requires 0 <= i < |cols| => cols[i].name)
  }

  /** How many collections in the list carry `name`. */
  function CountNamed(cols: seq<Collection>, name: string): (n: nat)
    ensures n <= |cols|
    ensures n == 0 <==> name !in Names(cols)
    decreases |cols|
  {
    if |cols| == 0 then 0
    else
      assert Names(cols) == [cols[0].name] + Names(cols[1..]);
      (if cols[0].name == name then 1 else 0) + CountNamed(cols[1..], name)
  }

  lemma {:induction false} CountNamedAppend(cols: seq<Collection>, c: Collection, name: string)
    ensures CountNamed(cols + [c], name) == CountNamed(cols, name) + (if c.name == name then 1 else 0)
    decreases |cols|
  {
    if |cols| == 0 {
      assert (cols + [c])[1..] == [];
    } else {
      assert (cols + [c])[1..] == cols[1..] + [c];
      CountNamedAppend(cols[1..], c, name);
    }
  }

  /** The module-load setup: create `text_embeddings` (1024 dimensions,
      cosine) unless a collection of that name already exists. Afterwards
      the name is present; when it was absent, that one collection and
      nothing else is added, so the store holds exactly one of that name;
      an existing one is left untouched, and so are the records. */
  function EnsureCollection(ix: Index): (r: Index)
    ensures CollectionName in Names(r.collections)
    ensures CountNamed(ix.collections, CollectionName) == 0 ==>
              r.collections == ix.collections + [Collection(CollectionName, CollectionParams)]
    ensures CountNamed(ix.collections, CollectionName) == 0 ==>
              CountNamed(r.collections, CollectionName) == 1
    ensures CountNamed(ix.collections, CollectionName) > 0 ==> r == ix
    ensures ix.collections <= r.collections
    ensures r.points == ix.points
  {
    if CollectionName in Names(ix.collections) then ix
    else
      var c := Collection(CollectionName, CollectionParams);
      CountNamedAppend(ix.collections, c, CollectionName);
      ix.(collections := ix.collections + [c])
  }

  /** Running the setup twice is running it once: there is still exactly
      one collection named `text_embeddings` when there was at most one. */
  lemma EnsureCollectionIdempotent(ix: Index)
    requires CountNamed(ix.collections, CollectionName) <= 1
    ensures EnsureCollection(EnsureCollection(ix)) == EnsureCollection(ix)
    ensures CountNamed(EnsureCollection(EnsureCollection(ix)).collections, CollectionName) == 1
  {
  }

  /** `generate_embeddings(text, input_type)`: the first vector the service
      returns, or `None` when the call fails (an exception, or a response
      without vectors, whose `[0]` raises inside the same `try`). */
  function GenerateEmbeddings(text: string, inputType: InputType, embed: EmbedOracle): (r: Option<Vector>)
    ensures var resp := embed(EmbedRequest([text], EmbedModel, inputType));
            && (r.None? <==> resp.Err? || |resp.value| == 0)
            && (r.Some? ==> r.value == resp.value[0])
  {
    match embed(EmbedRequest([text], EmbedModel, inputType))
    case Err(_) => None
    case Ok(vs) => if |vs| == 0 then None else Some(vs[0])
  }

  /** The outcome of one `store_embeddings` call: the store afterwards and
      the id returned (`None` when the embedding failed). */
  datatype StoreOutcome = StoreOutcome(index: Index, id: Option<string>)

  /** `store_embeddings(text)`. The embedding is requested in document mode;
      on failure nothing is written and `None` is returned; on success the
      record `{id: newId, payload: {"text": text}}` is upserted (an upsert
      replaces a record with the same id) and `newId` is returned. `newId`
      stands for the value `uuid.uuid4().hex` produced at that moment. */
  function StoreEmbeddings(ix: Index, text: string, embed: EmbedOracle, newId: string): (r: StoreOutcome)
    ensures GenerateEmbeddings(text, SearchDocument, embed).None? ==> r == StoreOutcome(ix, None)
    ensures GenerateEmbeddings(text, SearchDocument, embed).Some? ==>
              && r.id == Some(newId)
              && r.index.collections == ix.collections
              && r.index.points.Keys == ix.points.Keys + {newId}
              && r.index.points[newId] == Point(GenerateEmbeddings(text, SearchDocument, embed).value, text)
              && (forall id :: id in ix.points && id != newId ==> r.index.points[id] == ix.points[id])
  {
    match GenerateEmbeddings(text, SearchDocument, embed)
    case None => StoreOutcome(ix, None)
    case Some(v) =>
      StoreOutcome(ix.(points := ix.points[newId := Point(v, text)]), Some(newId))
  }

  /** With a fresh id, a successful store adds exactly one record and leaves
      every existing record as it was. */
  lemma StoreAddsOneRecord(ix: Index, text: string, embed: EmbedOracle, newId: string)
    requires newId !in ix.points
    requires GenerateEmbeddings(text, SearchDocument, embed).Some?
    ensures |StoreEmbeddings(ix, text, embed, newId).index.points| == |ix.points| + 1
    ensures forall id :: id in ix.points ==> StoreEmbeddings(ix, text, embed, newId).index.points[id] == ix.points[id]
    ensures StoreEmbeddings(ix, text, embed, newId).index.points[newId].text == text
  {
    var keys := StoreEmbeddings(ix, text, embed, newId).index.points.Keys;
    assert keys == ix.points.Keys + {newId};
    assert |keys| == |ix.points.Keys| + 1;
  }

  /** Any store, fresh id or not: the collections stay, no id disappears,
      at most `newId` is added, and every record that is new or changed
      holds the text. */
  lemma StoreFrame(ix: Index, text: string, embed: EmbedOracle, newId: string)
    ensures var after := StoreEmbeddings(ix, text, embed, newId).index;
            && after.collections == ix.collections
            && ix.points.Keys <= after.points.Keys <= ix.points.Keys + {newId}
            && |after.points| <= |ix.points| + 1
            && (forall id :: id in after.points ==> (id in ix.points && after.points[id] == ix.points[id]) || after.points[id].text == text)
  {
    var after := StoreEmbeddings(ix, text, embed, newId).index;
    if GenerateEmbeddings(text, SearchDocument, embed).Some? {
      if newId in ix.points {
        assert after.points.Keys == ix.points.Keys;
      } else {
        assert after.points.Keys == ix.points.Keys + {newId};
      }
    }
  }

  /** A store with an id not yet in use grows by one record exactly when
      the embedding succeeds. */
  lemma StoreFreshSize(ix: Index, text: string, embed: EmbedOracle, newId: string)
    requires newId !in ix.points
    ensures |StoreEmbeddings(ix, text, embed, newId).index.points| ==
              |ix.points| + (if GenerateEmbeddings(text, SearchDocument, embed).Some? then 1 else 0)
  {
    if GenerateEmbeddings(text, SearchDocument, embed).Some? {
      StoreAddsOneRecord(ix, text, embed, newId);
    }
  }

  /** A store with an id not yet in use: the record under that id appears
      exactly when the embedding succeeds and then holds the text; every
      other id keeps its record or its absence. */
  lemma StoreFresh(ix: Index, text: string, embed: EmbedOracle, newId: string)
    requires newId !in ix.points
    ensures var after := StoreEmbeddings(ix, text, embed, newId).index.points;
            && |after| == |ix.points| + (if GenerateEmbeddings(text, SearchDocument, embed).Some? then 1 else 0)
            && (newId in after <==> GenerateEmbeddings(text, SearchDocument, embed).Some?)
            && (newId in after ==> after[newId].text == text)
            && (forall id :: id != newId ==> (id in after <==> id in ix.points))
            && (forall id :: id != newId && id in after ==> after[id] == ix.points[id])
  {
    if GenerateEmbeddings(text, SearchDocument, embed).Some? {
      StoreAddsOneRecord(ix, text, embed, newId);
    }
  }

  /** Only the document-mode embedding of the text is ever consulted when
      storing: two services that agree on that one request store the same
      thing. */
  lemma StoreUsesDocumentMode(ix: Index, text: string, e1: EmbedOracle, e2: EmbedOracle, newId: string)
    requires e1(EmbedRequest([text], EmbedModel, SearchDocument)) == e2(EmbedRequest([text], EmbedModel, SearchDocument))
    ensures StoreEmbeddings(ix, text, e1, newId) == StoreEmbeddings(ix, text, e2, newId)
  {
  }

  /** `search_similar_text(query, limit)`: `[]` when the query-mode
      embedding fails; otherwise each hit of the similarity search, in rank
      order, as its `(payload text, score)` pair. */
  function SearchSimilarText(ix: Index, query: string, embed: EmbedOracle, search: SearchOracle, limit: nat): (r: seq<(string, real)>)
    ensures GenerateEmbeddings(query, SearchQuery, embed).None? ==> r == []
    ensures GenerateEmbeddings(query, SearchQuery, embed).Some? ==>
              var hits := search(GenerateEmbeddings(query, SearchQuery, embed).value, ix.points, limit);
              && |r| == |hits|
              && forall i :: 0 <= i < |hits| ==> r[i] == (hits[i].text, hits[i].score)
  {
    match GenerateEmbeddings(query, SearchQuery, embed)
    case None => []
    case Some(v) =>
      var hits := search(v, ix.points, limit);
      seq(|hits|, i requires 0 <= i < |hits| => (hits[i].text, hits[i].score))
  }

  /** What a well-behaved similarity search returns: at most `limit`
      distinct stored records, carrying their stored payload text, in
      order of non-increasing score. */
  ghost predicate RankedHits(hits: seq<Hit>, points: map<string, Point>, limit: nat)
  {
    && |hits| <= limit
    && (forall i :: 0 <= i < |hits| ==> hits[i].id in points && hits[i].text == points[hits[i].id].text)
    && (forall i, j :: 0 <= i < j < |hits| ==> hits[i].id != hits[j].id)
    && (forall i, j :: 0 <= i < j < |hits| ==> hits[i].score >= hits[j].score)
  }

  /** Under a well-behaved search, the result has at most `limit` entries,
      every text is the text of a stored record, scores do not increase,
      and an empty store yields no results. */
  lemma SearchResultsAreStoredTexts(ix: Index, query: string, embed: EmbedOracle, search: SearchOracle, limit: nat)
    requires forall v :: RankedHits(search(v, ix.points, limit), ix.points, limit)
    ensures var r := SearchSimilarText(ix, query, embed, search, limit);
            && |r| <= limit
            && (forall i :: 0 <= i < |r| ==> exists id :: id in ix.points && ix.points[id].text == r[i].0)
            && (forall i, j :: 0 <= i < j < |r| ==> r[i].1 >= r[j].1)
            && (ix.points == map[] ==> r == [])
  {
    var r := SearchSimilarText(ix, query, embed, search, limit);
    if GenerateEmbeddings(query, SearchQuery, embed).Some? {
      var hits := search(GenerateEmbeddings(query, SearchQuery, embed).value, ix.points, limit);
      assert RankedHits(hits, ix.points, limit);
      forall i | 0 <= i < |r| ensures exists id :: id in ix.points && ix.points[id].text == r[i].0 {
        var id := hits[i].id;
        assert id in ix.points && ix.points[id].text == r[i].0;
      }
      if |hits| > 0 {
        assert hits[0].id in ix.points;
      }
    }
  }

  /** Only the query-mode embedding of the question is ever consulted when
      searching. */
  lemma SearchUsesQueryMode(ix: Index, query: string, e1: EmbedOracle, e2: EmbedOracle, search: SearchOracle, limit: nat)
    requires e1(EmbedRequest([query], EmbedModel, SearchQuery)) == e2(EmbedRequest([query], EmbedModel, SearchQuery))
    ensures SearchSimilarText(ix, query, e1, search, limit) == SearchSimilarText(ix, query, e2, search, limit)
  {
  }
}
